=== FILE: README.md ===
# JupyterLab completer model in Dafny

This project models `CompleterModel`, the model behind JupyterLab's code-completion popup.
It covers the behaviour that the model's test suite (`tests/test-completer/src/model.spec.ts`) pins down.
The model tracks:

- the **original** text state, captured when completion was invoked;
- the **cursor** span being completed;
- the **current** text state, which follows the user's typing;
- the **query**;
- the ranking mode (`isLegacy`);
- the raw candidate list;
- a disposed flag.

Assigning the candidates, the request or the current text notifies listeners when the value changes; the cursor, query and mode setters never notify. `items()` filters the candidates by the query.
It highlights the matched runs of each label with `<mark>` tags and sorts the survivors by descending score.
Ties are broken by label order. `createPatch` turns an accepted completion into a replacement of the cursor span.

The modules:

- `Wrappers`: `Option`, standing in for `null` and `undefined`.
- `TextStates`: the text-state and cursor-span data and `makeState`. It also has JavaScript's `substring` and the whitespace test used by `handleTextChange`.
- `Matching`: fuzzy matching as a greedy subsequence mask, proved equal to an independent "some choice of positions spells the query" definition. It also holds `<mark>` rendering with its tag-stripping round trip, and lexicographic order.
- `Ranking`: the candidate datatypes, two scoring strategies, filtering, insertion sort (proved to give a sorted permutation) and `items()`.
- `RankingExamples`: the three query views the tests assert, worked out on `Ranking`.
- `Transitions`: the state machine as pure step functions. Its lemmas cover the invariant, change detection, guards, idempotence and that a disposed model is inert.
- `Completer`: the class `CompleterModel`. Its fields are updated in place by its methods, and each method is proved to perform the matching step of `Transitions`. The counter `emitted` counts the notifications delivered to listeners.
- `CompleterScenarios`: each test of the suite replayed on a fresh `CompleterModel`, returning what the test observes.

Where the tests fix a behaviour, the model follows them:

- **The cursor setter never notifies.** The test at lines 109-129 expects one notification after the original is set. Setting the cursor and then the current text brings the count to two, not three.
- **The `handleTextChange` reset fires with no character before the column.** The test at lines 380-392 resets at column 0, where there is no character at all. The model resets when no non-blank character stands immediately before the column (none at all, or a blank one) and the column is left of the original's.

## Model

| member | source | states |
|---|---|---|
| TextStates.MakeState | tests/test-completer/src/model.spec.ts:14-23 | `makeState(text)` is a state with that text at column 0 |
| Matching.MatchMask | tests/test-completer/src/model.spec.ts:170-191 | a found match marks one position per query character and spells out the query |
| Matching.MatchMaskComplete | tests/test-completer/src/model.spec.ts:192-219 | every scattered occurrence of the query is found, as "qux" is found in "quux" |
| Matching.MatchMaskIffSubsequence | tests/test-completer/src/model.spec.ts:170-191 | a candidate matches exactly when the query is a subsequence of its text |
| Matching.StripRender | tests/test-completer/src/model.spec.ts:192-219 | for a label without `<`, wrapping marked runs in tags and stripping the tags again gives back the label |
| Matching.HighlightRoundTrip | tests/test-completer/src/model.spec.ts:172-175 | for a label without `<`, removing the `<mark>` tags from a highlighted label gives back the original label |
| Matching.MarkedRender | tests/test-completer/src/model.spec.ts:192-219 | for a label without `<`, the tags of a rendered label encode exactly its mask, enclose exactly the marked characters in order, and never reopen a run right after closing it |
| Matching.HighlightMarks | tests/test-completer/src/model.spec.ts:172-175 | for a label without `<`, a highlighted label's tags encode exactly its mask, one pair per maximal run |
| Matching.StripUnmarked | tests/test-completer/src/model.spec.ts:157-169 | a label without `<` is unchanged by stripping |
| Matching.LexLeTotal | tests/test-completer/src/model.spec.ts:220-246 | any two labels are ordered one way or the other |
| Matching.LexLeTransitive | tests/test-completer/src/model.spec.ts:220-246 | label order is transitive |
| Matching.LexLeAntisymmetric | tests/test-completer/src/model.spec.ts:220-246 | two labels ordered both ways are equal |
| Ranking.LegacyScoreCompact | tests/test-completer/src/model.spec.ts:192-219 | the legacy score is never positive and is zero exactly when the match is one contiguous run |
| Ranking.DefaultScoreLaterStart | tests/test-completer/src/model.spec.ts:220-246 | one more unmatched leading character lowers the default score by one |
| Ranking.DefaultScoreBound | tests/test-completer/src/model.spec.ts:220-246 | the default score is at most the matched count less one, less the start index |
| Ranking.MarkLabel | tests/test-completer/src/model.spec.ts:172-175 | for a label without `<`, the highlighted label strips back to the label and its `<mark>` tags encode exactly the matcher's mask, each maximal run of matched characters in a single pair (no `<mark>` directly after a `</mark>`), so the enclosed characters spell the query; a label the query does not match is returned as it is |
| Ranking.Rank | tests/test-completer/src/model.spec.ts:170-191 | a surviving candidate's label is `MarkLabel` of its label; it keeps its label as tie-break key; its insert text is the literal text it was matched against (its own insert text, or its label when it has none); for a label without `<` the highlighted label strips back to the label |
| Ranking.RankSome | tests/test-completer/src/model.spec.ts:170-191 | a candidate survives iff the query is a subsequence of its insert text (or label) |
| Ranking.RankAllMembers | tests/test-completer/src/model.spec.ts:170-191 | the filtered entries are exactly the rankings of matching candidates |
| Ranking.BeforeTotal | tests/test-completer/src/model.spec.ts:220-246 | the ordering by score, then label, relates every two entries |
| Ranking.BeforeTransitive | tests/test-completer/src/model.spec.ts:192-246 | the ordering by score, then label, is transitive |
| Ranking.BeforeAntisymmetric | tests/test-completer/src/model.spec.ts:220-246 | two entries ordered both ways have the same score and the same label |
| Ranking.InsertSorted | tests/test-completer/src/model.spec.ts:192-246 | inserting an entry into a sorted list keeps it sorted |
| Ranking.InsertPermutes | tests/test-completer/src/model.spec.ts:192-246 | inserting adds exactly the new entry |
| Ranking.SortRankedCorrect | tests/test-completer/src/model.spec.ts:192-246 | sorting yields a permutation ordered by descending score, ties by label |
| Ranking.Items | tests/test-completer/src/model.spec.ts:157-169 | a blank query returns the raw list unchanged; `isIncomplete` passes through; filtering never adds items |
| Ranking.ItemsRanked | tests/test-completer/src/model.spec.ts:192-246 | for a non-blank query the items are, in order, a sorted arrangement of the matching candidates' entries, each exactly as often as filtering produced it |
| Ranking.ItemsCount | tests/test-completer/src/model.spec.ts:186-190 | for a non-blank query `items()` returns exactly as many items as there are matching candidates |
| Ranking.ItemsSound | tests/test-completer/src/model.spec.ts:170-191 | each returned item comes from a matching candidate whose literal text is its insert text; for a label without `<` the label is equal after tag removal |
| Ranking.ItemsComplete | tests/test-completer/src/model.spec.ts:170-191 | each matching candidate is returned with its highlighted label and, as insert text, its literal text |
| RankingExamples.MatchAbsent | tests/test-completer/src/model.spec.ts:176-191 | a query whose first letter is missing from a text does not match it, so bar and baz drop out |
| RankingExamples.FilterExample | tests/test-completer/src/model.spec.ts:170-191 | query "f" over foo, bar, baz gives only `<mark>f</mark>oo` with insert text "foo" |
| RankingExamples.LegacyOrderExample | tests/test-completer/src/model.spec.ts:192-219 | legacy mode, query "qux": `[<mark>qux</mark>, <mark>qu</mark>u<mark>x</mark>]` |
| RankingExamples.TieBreakExample | tests/test-completer/src/model.spec.ts:220-246 | default mode, query "qu": `[<mark>qu</mark>ux, <mark>qu</mark>x]`, the tie broken by label |
| Transitions.Cleared | tests/test-completer/src/model.spec.ts:303-316 | a reset leaves no request, cursor, current text, query or candidates, and keeps mode and count |
| Transitions.ApplyStep | tests/test-completer/src/model.spec.ts:34-153 | every operation keeps the invariant and notifies at most once |
| Transitions.RunKeepsInv | tests/test-completer/src/model.spec.ts:276-334 | after any sequence of operations a cursor or current text only exists beside a request |
| Transitions.DisposedIsInert | tests/test-completer/src/model.spec.ts:346-361 | once disposed, no sequence of operations changes the model or notifies |
| Transitions.DisposedItemsEmpty | tests/test-completer/src/model.spec.ts:346-353 | after disposal `items()` is the empty list whatever follows |
| Transitions.SetItemsNotifies | tests/test-completer/src/model.spec.ts:35-77 | `setItems` takes the list and notifies iff its length or some label differs |
| Transitions.SetItemsRepeat | tests/test-completer/src/model.spec.ts:53-77 | delivering the same list twice is the same as once |
| Transitions.SetOriginalNotifies | tests/test-completer/src/model.spec.ts:79-107 | assigning `original` notifies iff the value differs; a state also becomes `current`; null resets everything |
| Transitions.SetOriginalRepeat | tests/test-completer/src/model.spec.ts:93-107 | assigning the same `original` twice is the same as once |
| Transitions.SetCursorGuard | tests/test-completer/src/model.spec.ts:319-334 | the cursor is taken iff a request exists, and never notifies |
| Transitions.SetCurrentGuard | tests/test-completer/src/model.spec.ts:276-316 | `current` is ignored when equal, and without a request or a cursor; otherwise it is taken, with the query set to the new text from the cursor start to its column, or resets the model when shorter than the request; it notifies exactly once when a new value arrives with request and cursor set, and otherwise not at all |
| Transitions.SetCurrentRepeat | tests/test-completer/src/model.spec.ts:131-153 | assigning the same `current` twice is the same as once |
| Transitions.HandleTextChangeCases | tests/test-completer/src/model.spec.ts:364-392 | without a request a keystroke changes nothing; with one, a keystroke that left the token resets the model and any other is offered to the `current` setter |
| Transitions.DisposeRepeat | tests/test-completer/src/model.spec.ts:355-361 | `dispose()` sets the flag, does not notify, and a second call changes nothing |
| Completer.CompleterModel.constructor | tests/test-completer/src/model.spec.ts:27-31 | a new model has null request, cursor and current text, no items, and is not disposed |
| Completer.CompleterModel.Reset | tests/test-completer/src/model.spec.ts:303-316 | clears the state in place as `Cleared` says |
| Completer.CompleterModel.SetItems | tests/test-completer/src/model.spec.ts:43-76 | runs `SetItemsStep` in place, keeping the invariant |
| Completer.CompleterModel.SetOriginal | tests/test-completer/src/model.spec.ts:87-106 | runs `SetOriginalStep` in place, keeping the invariant |
| Completer.CompleterModel.SetCursor | tests/test-completer/src/model.spec.ts:324-334 | runs `SetCursorStep` in place, keeping the invariant |
| Completer.CompleterModel.SetCurrent | tests/test-completer/src/model.spec.ts:122-153 | runs `SetCurrentStep` in place, keeping the invariant |
| Completer.CompleterModel.SetQuery | tests/test-completer/src/model.spec.ts:184 | sets the query unless disposed |
| Completer.CompleterModel.SetLegacy | tests/test-completer/src/model.spec.ts:208 | sets the ranking mode unless disposed |
| Completer.CompleterModel.HandleTextChange | tests/test-completer/src/model.spec.ts:364-392 | runs `HandleTextChangeStep` in place, keeping the invariant |
| Completer.CompleterModel.Dispose | tests/test-completer/src/model.spec.ts:337-361 | runs `DisposeStep` in place, keeping the invariant |
| Completer.CompleterModel.Emit | tests/test-completer/src/model.spec.ts:37-41 | one notification adds one to the listener's count |
| Completer.CompleterModel.ItemsView | tests/test-completer/src/model.spec.ts:157-190 | `items()` passes `isIncomplete` through, returns the raw list for a blank query, and otherwise as many items as there are matching candidates; it is `Items` of the model's candidates, query and mode, so the ranking lemmas apply to it |
| Completer.CompleterModel.CreatePatch | tests/test-completer/src/model.spec.ts:395-430 | a patch exists iff request and cursor are set, and spans exactly the cursor with the given value |
| CompleterScenarios.ItemsChangeSignals | tests/test-completer/src/model.spec.ts:35-51 | counts 0, 1, 2 around the deliveries |
| CompleterScenarios.SameItemsDoNotSignal | tests/test-completer/src/model.spec.ts:53-77 | counts 0, 1, 2, 3; the repeated lists, empty ones included, notify nothing |
| CompleterScenarios.OriginalSignals | tests/test-completer/src/model.spec.ts:79-107 | counts 0, 1, 2; repeated assignments notify nothing |
| CompleterScenarios.CurrentSignals | tests/test-completer/src/model.spec.ts:109-153 | counts 0, 1, 2, 3; cursor and repeated assignments notify nothing |
| CompleterScenarios.BlankQueryItems | tests/test-completer/src/model.spec.ts:157-169 | a blank query returns foo, bar, baz as delivered |
| CompleterScenarios.FilteredItems | tests/test-completer/src/model.spec.ts:170-191 | query "f" returns only `<mark>f</mark>oo` / "foo" |
| CompleterScenarios.LegacyOrderedItems | tests/test-completer/src/model.spec.ts:192-219 | legacy query "qux" returns qux before quux, highlighted as the test expects |
| CompleterScenarios.TieBrokenItems | tests/test-completer/src/model.spec.ts:220-246 | query "qu" returns quux before qux |
| CompleterScenarios.Defaults | tests/test-completer/src/model.spec.ts:249-274 | request, current and cursor start null; setting the request makes it and the current text that state |
| CompleterScenarios.CurrentNeedsOriginal | tests/test-completer/src/model.spec.ts:276-289 | `current` stays null without a request and is taken with request and cursor |
| CompleterScenarios.CurrentNeedsCursor | tests/test-completer/src/model.spec.ts:291-301 | `current` is not taken while the cursor is null |
| CompleterScenarios.ShorterCurrentResets | tests/test-completer/src/model.spec.ts:303-316 | "fo" after "foo" leaves request and current null and items `{isIncomplete: false, items: []}` |
| CompleterScenarios.CursorNeedsOriginal | tests/test-completer/src/model.spec.ts:319-334 | the cursor stays null without a request and is taken with one |
| CompleterScenarios.DisposeWithItems | tests/test-completer/src/model.spec.ts:337-353 | not disposed before `dispose()`, disposed after |
| CompleterScenarios.DisposeTwice | tests/test-completer/src/model.spec.ts:355-361 | still disposed after a second `dispose()` |
| CompleterScenarios.TextChangeSetsCurrent | tests/test-completer/src/model.spec.ts:365-378 | "foob" at column 4 becomes the current text |
| CompleterScenarios.TextChangeResets | tests/test-completer/src/model.spec.ts:380-392 | "foo " at column 0 after "foo" at column 3 clears the request |
| CompleterScenarios.PatchValue | tests/test-completer/src/model.spec.ts:396-408 | the patch is `{start: 0, end: 3, value: "foobar"}` |
| CompleterScenarios.PatchUndefined | tests/test-completer/src/model.spec.ts:410-413 | no patch on a fresh model |
| CompleterScenarios.PatchAcrossLines | tests/test-completer/src/model.spec.ts:415-430 | over "foo\nbar" the patch offsets are 7 and 7, counted over the whole text |

## Left out

- The implementation file of `CompleterModel` is not part of this model. The behaviour modelled is the one `tests/test-completer/src/model.spec.ts` fixes, and each member is cited by the lines of that file.
- Signal plumbing: connecting, disconnecting and emitting belong to a library outside this core. A notification is the counter `emitted`, and disposal stops it by making every later operation a no-op.
- Exact scoring formulas: the real scores of both ranking strategies are not part of this model. `DefaultScore` (contiguous pairs minus the start index) and `LegacyScore` (matched positions minus the match span) are stand-ins that reproduce the two orderings the tests assert. No numeric value is claimed for the real scorer.
- Locale-aware comparison: ties are broken by character-code order, which agrees with locale order on the tested labels.
- Case folding: matching is case-sensitive.
- Text-state geometry: `line`, `lineHeight`, `charWidth` and `coords` are dropped. The shorter-text reset and the character-before-column test use the whole text and a column counted over it, as the multi-line patch test (lines 415-430) counts offsets over `"foo\nbar"`.
- Object identity: the tests compare states by reference (`to.equal(request)`). The model compares them by value, which is also what the change detection uses.
- Query derivation: the query is the current text from the cursor start to the current column, in JavaScript `substring` semantics. No test observes it, since the tests assign the query directly.
- Whitespace: `IsWhitespace` covers the ASCII blank characters and the no-break space. It does not cover the other Unicode space characters.
- Reassigning a non-null `original` keeps the cursor, the candidates and the previous query, so the new request is filtered by the old query until the query is reassigned. Only a null `original` performs the full reset. No test fixes this case.
- `setItems` change detection ignores `isIncomplete` and `insertText`. It compares the list's length and its labels only.
- Matching.StripRender, Matching.HighlightRoundTrip, Matching.StripUnmarked, Matching.MarkedRender, Matching.HighlightMarks, Ranking.MarkLabel, Ranking.Rank, Ranking.ItemsSound: the tag-stripping round trip, and the statements that the tags encode exactly the matched positions in maximal runs, are promised only for labels without `<`. Labels are not HTML-escaped before the tags are inserted, so a label that itself contains `<mark>` is lost on stripping.
- Text width: a Dafny `string` is a sequence of Unicode scalar values, while the source counts lengths and columns in UTF-16 code units. For text outside the Basic Multilingual Plane the shorter-text reset and the character before the column are computed on different positions than in the source.
- Ranking.Rank: an empty `insertText` counts as present and is used as the match text, as any other `insertText` is.

=== FILE: matching.dfy ===
/** Query matching for the completer: which characters of a candidate a query
    picks out, how the picked runs are wrapped in `<mark>` tags, and the plain
    lexicographic order used to break ties. */
module Matching {
  import opened Wrappers

  /** The characters of `t` at the positions `m` marks, in order. */
  function Select(t: string, m: seq<bool>): (r: string)
    requires |m| == |t|
    ensures |r| <= |t|
  {
    if t == [] then [] else (if m[0] then [t[0]] else []) + Select(t[1..], m[1..])
  }

  /** Reference definition of a fuzzy match: some choice of positions of `t`
      spells out `q`. */
  ghost predicate IsSubsequence(q: string, t: string) {
    exists m: seq<bool> :: |m| == |t| && Select(t, m) == q
  }

  /** Greedy leftmost match of `q` against `t`: each query character takes the
      first unused position of `t` that holds it. The result marks the
      matched positions, or is None when `q` cannot be spelled out of `t`. */
  function MatchMask(q: string, t: string): (r: Option<seq<bool>>)
    ensures r.Some? ==> |r.value| == |t| && Select(t, r.value) == q
  {
    if t == [] then (if q == [] then Some([]) else None)
    else if q != [] && t[0] == q[0] then
      match MatchMask(q[1..], t[1..])
      case Some(m) => Some([true] + m)
      case None => None
    else
      match MatchMask(q, t[1..])
      case Some(m) => Some([false] + m)
      case None => None
  }

  /** Turning off the first selected position drops the first character of
      the selection. */
  lemma {:induction false} DropFirstSelected(t: string, m: seq<bool>) returns (m2: seq<bool>)
    requires |m| == |t| && Select(t, m) != []
    ensures |m2| == |t| && Select(t, m2) == Select(t, m)[1..]
  {
    if m[0] {
      m2 := [false] + m[1..];
      assert m2[1..] == m[1..];
    } else {
      var rest := DropFirstSelected(t[1..], m[1..]);
      m2 := [false] + rest;
      assert m2[1..] == rest;
    }
  }

  /** The greedy match misses no fuzzy match. */
  lemma {:induction false} MatchMaskComplete(q: string, t: string, m: seq<bool>)
    requires |m| == |t| && Select(t, m) == q
    ensures MatchMask(q, t).Some?
  {
    if t == [] {
    } else if q != [] && t[0] == q[0] {
      if m[0] {
        MatchMaskComplete(q[1..], t[1..], m[1..]);
      } else {
        var m2 := DropFirstSelected(t[1..], m[1..]);
        MatchMaskComplete(q[1..], t[1..], m2);
      }
    } else {
      MatchMaskComplete(q, t[1..], m[1..]);
    }
  }

  /** The greedy matcher accepts exactly the fuzzy matches. */
  lemma MatchMaskIffSubsequence(q: string, t: string)
    ensures MatchMask(q, t).Some? <==> IsSubsequence(q, t)
  {
    if IsSubsequence(q, t) {
      var m :| |m| == |t| && Select(t, m) == q;
      MatchMaskComplete(q, t, m);
    }
    if MatchMask(q, t).Some? {
      var m := MatchMask(q, t).value;
      assert |m| == |t| && Select(t, m) == q;
    }
  }

  const Open := "<mark>"
  const Close := "</mark>"

  /** `s` with every maximal run of marked characters wrapped in
      `<mark>`…`</mark>`; `open` says a run is already open. */
  function Render(s: string, m: seq<bool>, open: bool): string
    requires |m| == |s|
  {
    if s == [] then (if open then Close else [])
    else if m[0] && !open then Open + [s[0]] + Render(s[1..], m[1..], true)
    else if !m[0] && open then Close + [s[0]] + Render(s[1..], m[1..], false)
    else [s[0]] + Render(s[1..], m[1..], open)
  }

  /** The highlighted copy of a label. */
  function Highlight(s: string, m: seq<bool>): string
    requires |m| == |s|
  {
    Render(s, m, false)
  }

  /** Removes every `<mark>` and `</mark>` tag. */
  function StripMarks(t: string): (r: string)
    ensures |r| <= |t|
  {
    if t == [] then []
    else if |t| >= |Open| && t[..|Open|] == Open then StripMarks(t[|Open|..])
    else if |t| >= |Close| && t[..|Close|] == Close then StripMarks(t[|Close|..])
    else [t[0]] + StripMarks(t[1..])
  }

  lemma StripOpen(rest: string)
    ensures StripMarks(Open + rest) == StripMarks(rest)
  {
    assert (Open + rest)[..|Open|] == Open;
    assert (Open + rest)[|Open|..] == rest;
  }

  lemma StripClose(rest: string)
    ensures StripMarks(Close + rest) == StripMarks(rest)
  {
    var t := Close + rest;
    assert t[..|Open|] != Open by { assert t[1] != Open[1]; }
    assert t[..|Close|] == Close;
    assert t[|Close|..] == rest;
  }

  lemma StripPlain(c: char, rest: string)
    requires c != '<'
    ensures StripMarks([c] + rest) == [c] + StripMarks(rest)
  {
    var t := [c] + rest;
    assert t[1..] == rest;
    if |t| >= |Open| { assert t[..|Open|][0] != Open[0]; }
    if |t| >= |Close| { assert t[..|Close|][0] != Close[0]; }
  }

  lemma StripOpenPlain(c: char, rest: string)
    requires c != '<'
    ensures StripMarks(Open + [c] + rest) == [c] + StripMarks(rest)
  {
    assert Open + [c] + rest == Open + ([c] + rest);
    StripOpen([c] + rest);
    StripPlain(c, rest);
  }

  lemma StripClosePlain(c: char, rest: string)
    requires c != '<'
    ensures StripMarks(Close + [c] + rest) == [c] + StripMarks(rest)
  {
    assert Close + [c] + rest == Close + ([c] + rest);
    StripClose([c] + rest);
    StripPlain(c, rest);
  }

  /** Removing the tags from a rendered label gives back the label, provided
      the label holds no `<` of its own. */
  lemma {:induction false} StripRender(s: string, m: seq<bool>, open: bool)
    requires |m| == |s| && '<' !in s
    ensures StripMarks(Render(s, m, open)) == s
  {
    if s == [] {
      if open { StripClose([]); }
    } else {
      var c, rest := s[0], s[1..];
      var tail := Render(rest, m[1..], m[0]);
      assert c != '<' && '<' !in rest by { assert c in s; assert forall x :: x in rest ==> x in s; }
      StripRender(rest, m[1..], m[0]);
      if m[0] && !open {
        StripOpenPlain(c, tail);
      } else if !m[0] && open {
        StripClosePlain(c, tail);
      } else {
        StripPlain(c, tail);
      }
      assert s == [c] + rest;
    }
  }

  /** A string without `<` has no tags to remove. */
  lemma {:induction false} StripUnmarked(s: string)
    requires '<' !in s
    ensures StripMarks(s) == s
  {
    if s != [] {
      assert '<' !in s[1..] by { assert forall c :: c in s[1..] ==> c in s; }
      StripUnmarked(s[1..]);
      StripPlain(s[0], s[1..]);
      assert s == [s[0]] + s[1..];
    }
  }

  /** Highlighting never loses or alters a label character. */
  lemma HighlightRoundTrip(s: string, m: seq<bool>)
    requires |m| == |s| && '<' !in s
    ensures StripMarks(Highlight(s, m)) == s
  {
    StripRender(s, m, false);
  }

  /** The characters standing between a `<mark>` and the next `</mark>`;
      `inside` says a run is already open. */
  function Marked(t: string, inside: bool): (r: string)
    ensures |r| <= |t|
  {
    if t == [] then []
    else if |t| >= |Open| && t[..|Open|] == Open then Marked(t[|Open|..], true)
    else if |t| >= |Close| && t[..|Close|] == Close then Marked(t[|Close|..], false)
    else (if inside then [t[0]] else []) + Marked(t[1..], inside)
  }

  /** For each character outside the tags, whether it stands inside a
      `<mark>` run: the mask the tags encode. */
  function MarkedMask(t: string, inside: bool): (r: seq<bool>)
    ensures |r| <= |t|
  {
    if t == [] then []
    else if |t| >= |Open| && t[..|Open|] == Open then MarkedMask(t[|Open|..], true)
    else if |t| >= |Close| && t[..|Close|] == Close then MarkedMask(t[|Close|..], false)
    else [inside] + MarkedMask(t[1..], inside)
  }

  /** No `<mark>` directly follows a `</mark>`: each run of marked characters
      is wrapped in one pair of tags. `closed` says a `</mark>` was just read. */
  predicate NoReopen(t: string, closed: bool) {
    if t == [] then true
    else if |t| >= |Open| && t[..|Open|] == Open then !closed && NoReopen(t[|Open|..], false)
    else if |t| >= |Close| && t[..|Close|] == Close then NoReopen(t[|Close|..], true)
    else NoReopen(t[1..], false)
  }

  lemma MarkedOpenPlain(c: char, rest: string, inside: bool)
    requires c != '<'
    ensures Marked(Open + [c] + rest, inside) == [c] + Marked(rest, true)
    ensures MarkedMask(Open + [c] + rest, inside) == [true] + MarkedMask(rest, true)
    ensures NoReopen(Open + [c] + rest, false) == NoReopen(rest, false)
  {
    var t := Open + [c] + rest;
    assert t[..|Open|] == Open;
    assert t[|Open|..] == [c] + rest;
    MarkedPlain(c, rest, true);
    MarkedPlain(c, rest, false);
  }

  lemma MarkedClosePlain(c: char, rest: string, inside: bool)
    requires c != '<'
    ensures Marked(Close + [c] + rest, inside) == Marked(rest, false)
    ensures MarkedMask(Close + [c] + rest, inside) == [false] + MarkedMask(rest, false)
    ensures NoReopen(Close + [c] + rest, false) == NoReopen(rest, false)
  {
    var t := Close + [c] + rest;
    assert t[..|Open|] != Open by { assert t[1] != Open[1]; }
    assert t[..|Close|] == Close;
    assert t[|Close|..] == [c] + rest;
    MarkedPlain(c, rest, false);
    MarkedPlain(c, rest, true);
  }

  lemma MarkedPlain(c: char, rest: string, inside: bool)
    requires c != '<'
    ensures Marked([c] + rest, inside) == (if inside then [c] else []) + Marked(rest, inside)
    ensures MarkedMask([c] + rest, inside) == [inside] + MarkedMask(rest, inside)
    ensures NoReopen([c] + rest, inside) == NoReopen(rest, false)
  {
    var t := [c] + rest;
    assert t[1..] == rest;
    if |t| >= |Open| { assert t[..|Open|][0] != Open[0]; }
    if |t| >= |Close| { assert t[..|Close|][0] != Close[0]; }
  }

  /** The tags of a rendered label enclose exactly the marked characters,
      provided the label holds no `<` of its own. */
  lemma {:induction false} MarkedSelect(s: string, m: seq<bool>, open: bool)
    requires |m| == |s| && '<' !in s
    ensures Marked(Render(s, m, open), open) == Select(s, m)
  {
    if s == [] {
      if open {
        assert Close[..|Open|] != Open by { assert Close[1] != Open[1]; }
        assert Close[|Close|..] == [];
      }
    } else {
      var c, rest := s[0], s[1..];
      var tail := Render(rest, m[1..], m[0]);
      assert c != '<' && '<' !in rest by { assert c in s; assert forall x :: x in rest ==> x in s; }
      MarkedSelect(rest, m[1..], m[0]);
      if m[0] && !open {
        MarkedOpenPlain(c, tail, open);
      } else if !m[0] && open {
        MarkedClosePlain(c, tail, open);
      } else {
        MarkedPlain(c, tail, open);
      }
    }
  }

  /** The tags of a rendered label encode its mask. */
  lemma {:induction false} MarkedMaskRender(s: string, m: seq<bool>, open: bool)
    requires |m| == |s| && '<' !in s
    ensures MarkedMask(Render(s, m, open), open) == m
  {
    if s == [] {
      if open {
        assert Close[..|Open|] != Open by { assert Close[1] != Open[1]; }
        assert Close[|Close|..] == [];
      }
      assert m == [];
    } else {
      var c, rest := s[0], s[1..];
      var tail := Render(rest, m[1..], m[0]);
      assert c != '<' && '<' !in rest by { assert c in s; assert forall x :: x in rest ==> x in s; }
      MarkedMaskRender(rest, m[1..], m[0]);
      if m[0] && !open {
        MarkedOpenPlain(c, tail, open);
      } else if !m[0] && open {
        MarkedClosePlain(c, tail, open);
      } else {
        MarkedPlain(c, tail, open);
      }
      assert m == [m[0]] + m[1..];
    }
  }

  /** A rendered label wraps each run in a single pair of tags. */
  lemma {:induction false} RenderNoReopen(s: string, m: seq<bool>, open: bool)
    requires |m| == |s| && '<' !in s
    ensures NoReopen(Render(s, m, open), false)
  {
    if s == [] {
      if open {
        assert Close[..|Open|] != Open by { assert Close[1] != Open[1]; }
        assert Close[|Close|..] == [];
      }
    } else {
      var c, rest := s[0], s[1..];
      var tail := Render(rest, m[1..], m[0]);
      assert c != '<' && '<' !in rest by { assert c in s; assert forall x :: x in rest ==> x in s; }
      RenderNoReopen(rest, m[1..], m[0]);
      if m[0] && !open {
        MarkedOpenPlain(c, tail, open);
      } else if !m[0] && open {
        MarkedClosePlain(c, tail, open);
      } else {
        MarkedPlain(c, tail, open);
      }
    }
  }

  /** The tags of a rendered label enclose exactly the marked characters:
      they encode the mask itself, spell the marked characters, and wrap
      each run in a single pair, provided the label holds no `<` of its own. */
  lemma MarkedRender(s: string, m: seq<bool>, open: bool)
    requires |m| == |s| && '<' !in s
    ensures Marked(Render(s, m, open), open) == Select(s, m)
    ensures MarkedMask(Render(s, m, open), open) == m
    ensures NoReopen(Render(s, m, open), false)
  {
    MarkedSelect(s, m, open);
    MarkedMaskRender(s, m, open);
    RenderNoReopen(s, m, open);
  }

  /** Highlighting wraps exactly the marked characters. */
  lemma HighlightMarks(s: string, m: seq<bool>)
    requires |m| == |s| && '<' !in s
    ensures Marked(Highlight(s, m), false) == Select(s, m)
    ensures MarkedMask(Highlight(s, m), false) == m
    ensures NoReopen(Highlight(s, m), false)
  {
    MarkedRender(s, m, false);
  }

  /** Lexicographic order on strings by character code. */
  predicate LexLe(a: string, b: string) {
    a == [] || (b != [] && (a[0] < b[0] || (a[0] == b[0] && LexLe(a[1..], b[1..]))))
  }

  lemma {:induction false} LexLeTotal(a: string, b: string)
    ensures LexLe(a, b) || LexLe(b, a)
  {
    if a != [] && b != [] && a[0] == b[0] {
      LexLeTotal(a[1..], b[1..]);
    }
  }

  lemma {:induction false} LexLeTransitive(a: string, b: string, c: string)
    requires LexLe(a, b) && LexLe(b, c)
    ensures LexLe(a, c)
  {
    if a != [] && b != [] && c != [] && a[0] == b[0] && b[0] == c[0] {
      LexLeTransitive(a[1..], b[1..], c[1..]);
    }
  }

  lemma {:induction false} LexLeAntisymmetric(a: string, b: string)
    requires LexLe(a, b) && LexLe(b, a)
    ensures a == b
  {
    if a != [] && b != [] {
      LexLeAntisymmetric(a[1..], b[1..]);
      assert a == [a[0]] + a[1..] && b == [b[0]] + b[1..];
    }
  }
}

=== FILE: model.dfy ===
/** `CompleterModel`: the completion model an editor integration drives. It
    holds the original request, the cursor span being completed, the latest
    text, the query and the candidate list, and counts the change
    notifications it sends to its listeners. Every mutator is proved to run
    the matching step of `Transitions`, so the lemmas there apply to it. */
module Completer {
  import opened Wrappers
  import opened TextStates
  import opened Ranking
  import opened Transitions

  class CompleterModel {
    var original: Option<TextState>
    var cursor: Option<CursorSpan>
    var current: Option<TextState>
    var query: string
    var isLegacy: bool
    var rawItems: CompletionList
    var isDisposed: bool
    /** Notifications delivered so far: the listener's `called` counter. */
    var emitted: nat

    /** The model's fields as one value. */
    function State(): ModelState
      reads this
    {
      ModelState(original, cursor, current, query, isLegacy, rawItems, isDisposed, emitted)
    }

    ghost predicate Valid()
      reads this
    {
      Inv(State())
    }

    constructor ()
      ensures Valid() && State() == Initial
    {
      original, cursor, current := None, None, None;
      query, isLegacy := [], false;
      rawItems := EmptyList;
      isDisposed := false;
      emitted := 0;
    }

    /** Delivers one change notification. */
    method Emit()
      modifies this`emitted
      ensures emitted == old(emitted) + 1
    {
      emitted := emitted + 1;
    }

    /** Clears request, cursor, current text, query and candidates. */
    method Reset()
      modifies this
      ensures State() == Cleared(old(State()))
    {
      original, cursor, current := None, None, None;
      query := [];
      rawItems := EmptyList;
    }

    method SetItems(list: CompletionList)
      requires Valid()
      modifies this
      ensures Valid()
      ensures State() == SetItemsStep(old(State()), list)
    {
      if isDisposed {
        return;
      }
      var same := SameLabels(rawItems, list);
      rawItems := list;
      if !same {
        Emit();
      }
    }

    method SetOriginal(value: Option<TextState>)
      requires Valid()
      modifies this
      ensures Valid()
      ensures State() == SetOriginalStep(old(State()), value)
    {
      if isDisposed || original == value {
        return;
      }
      if value.None? {
        Reset();
      } else {
        original := value;
        current := value;
      }
      Emit();
    }

    method SetCursor(value: Option<CursorSpan>)
      requires Valid()
      modifies this
      ensures Valid()
      ensures State() == SetCursorStep(old(State()), value)
    {
      if isDisposed || original.None? {
        return;
      }
      cursor := value;
    }

    method SetCurrent(value: Option<TextState>)
      requires Valid()
      modifies this
      ensures Valid()
      ensures State() == SetCurrentStep(old(State()), value)
    {
      if isDisposed || current == value || original.None? || cursor.None? {
        return;
      }
      current := value;
      if value.None? {
        Emit();
        return;
      }
      if |value.value.text| < |original.value.text| {
        Reset();
        Emit();
        return;
      }
      query := Substring(value.value.text, cursor.value.start, value.value.column);
      Emit();
    }

    method SetQuery(q: string)
      requires Valid()
      modifies this
      ensures Valid()
      ensures State() == SetQueryStep(old(State()), q)
    {
      if !isDisposed {
        query := q;
      }
    }

    method SetLegacy(legacy: bool)
      requires Valid()
      modifies this
      ensures Valid()
      ensures State() == SetLegacyStep(old(State()), legacy)
    {
      if !isDisposed {
        isLegacy := legacy;
      }
    }

    /** The per-keystroke entry point. */
    method HandleTextChange(change: TextState)
      requires Valid()
      modifies this
      ensures Valid()
      ensures State() == HandleTextChangeStep(old(State()), change)
    {
      if isDisposed || original.None? {
        return;
      }
      if LeftToken(change, original.value) {
        SetOriginal(None);
        return;
      }
      SetCurrent(Some(change));
    }

    method Dispose()
      requires Valid()
      modifies this
      ensures Valid()
      ensures State() == DisposeStep(old(State()))
    {
      if isDisposed {
        return;
      }
      Reset();
      isDisposed := true;
    }

    /** `items()`: the candidate list as the query shows it. */
    function ItemsView(): (r: CompletionList)
      reads this
      ensures r.isIncomplete == rawItems.isIncomplete
      ensures query == [] ==> r == rawItems
      ensures query != [] ==> |r.items| == MatchingCount(rawItems.items, query)
      ensures r == Items(rawItems, query, isLegacy)
    {
      if query != [] then ItemsCount(rawItems, query, isLegacy); ItemsOfState(State())
      else ItemsOfState(State())
    }

    /** `createPatch(value)`: replace the cursor span of the original text,
        in absolute character offsets, by `value`; absent without a request
        or a cursor. */
    function CreatePatch(value: string): (r: Option<Patch>)
      reads this
      ensures r.Some? <==> original.Some? && cursor.Some?
      ensures r.Some? ==> r.value.start == cursor.value.start && r.value.end == cursor.value.end
      ensures r.Some? ==> r.value.value == value
    {
      if original.None? || cursor.None? then None
      else Some(Patch(cursor.value.start, cursor.value.end, value))
    }
  }
}

=== FILE: ranking.dfy ===
/** The candidate list and its query view: `items()` filters the raw
    candidates by the query, highlights each survivor's label, scores it and
    sorts by descending score with a lexicographic tie-break. */
module Ranking {
  import opened Wrappers
  import opened Matching

  /** A completion candidate: the label shown to the user (`labelText`, since
      `label` is a Dafny keyword) and an optional text to insert instead. */
  datatype CompletionItem = CompletionItem(labelText: string, insertText: Option<string>)

  datatype CompletionList = CompletionList(isIncomplete: bool, items: seq<CompletionItem>)

  /** The list the model holds before any candidates arrive and after a reset. */
  const EmptyList := CompletionList(false, [])

  /** The text a query is matched against: `insertText`, or the label when
      there is none. */
  function FilterText(it: CompletionItem): string {
    if it.insertText.Some? then it.insertText.value else it.labelText
  }

  /** Two lists count as the same delivery when they have the same length
      and the same label at every position. */
  predicate SameLabels(a: CompletionList, b: CompletionList) {
    |a.items| == |b.items| &&
    forall i :: 0 <= i < |a.items| ==> a.items[i].labelText == b.items[i].labelText
  }

  // ---------------------------------------------------------------------
  // Scores. Both strategies look only at which positions a query matched.

  /** Index of the first matched position (|m| when none). */
  function FirstMatch(m: seq<bool>): (r: nat)
    ensures r <= |m|
    ensures forall i :: 0 <= i < r ==> !m[i]
    ensures r < |m| ==> m[r]
  {
    if m == [] then 0 else if m[0] then 0 else 1 + FirstMatch(m[1..])
  }

  /** One past the last matched position (0 when none). */
  function MatchEnd(m: seq<bool>): (r: nat)
    ensures r <= |m|
    ensures forall i :: r <= i < |m| ==> !m[i]
    ensures r > 0 ==> m[r - 1]
  {
    if m == [] then 0 else if m[|m| - 1] then |m| else MatchEnd(m[..|m| - 1])
  }

  /** Number of matched positions. */
  function MatchCount(m: seq<bool>): (r: nat)
    ensures r <= |m|
  {
    if m == [] then 0 else (if m[0] then 1 else 0) + MatchCount(m[1..])
  }

  /** Number of matched positions directly followed by another matched one. */
  function Adjacent(m: seq<bool>): (r: nat)
    ensures |m| > 0 ==> r < |m|
  {
    if |m| < 2 then 0 else (if m[0] && m[1] then 1 else 0) + Adjacent(m[1..])
  }

  /** Default strategy: rewards contiguous matched runs and an early start. */
  function DefaultScore(m: seq<bool>): int {
    Adjacent(m) - FirstMatch(m)
  }

  /** Legacy strategy: penalises the unmatched characters inside the matched
      span, so a compact match outranks a scattered one. */
  function LegacyScore(m: seq<bool>): int {
    if MatchEnd(m) <= FirstMatch(m) then 0 else MatchCount(m) - (MatchEnd(m) - FirstMatch(m))
  }

  /** The matched positions form a single run. */
  predicate Contiguous(m: seq<bool>) {
    forall i, j, k :: 0 <= i < j < k < |m| && m[i] && m[k] ==> m[j]
  }

  lemma {:induction false} MatchCountAppend(a: seq<bool>, b: seq<bool>)
    ensures MatchCount(a + b) == MatchCount(a) + MatchCount(b)
  {
    if a != [] {
      MatchCountAppend(a[1..], b);
      assert (a + b)[1..] == a[1..] + b;
    } else {
      assert a + b == b;
    }
  }

  lemma {:induction false} MatchCountNone(m: seq<bool>)
    requires forall i :: 0 <= i < |m| ==> !m[i]
    ensures MatchCount(m) == 0
  {
    if m != [] {
      MatchCountNone(m[1..]);
    }
  }

  lemma {:induction false} MatchCountFull(m: seq<bool>)
    ensures MatchCount(m) == |m| <==> forall i :: 0 <= i < |m| ==> m[i]
  {
    if m != [] {
      MatchCountFull(m[1..]);
      if MatchCount(m) == |m| {
        assert m[0];
        forall i | 0 < i < |m| ensures m[i] { assert m[1..][i - 1] == m[i]; }
      }
    }
  }

  /** Dropping an unmatched prefix keeps the count. */
  lemma MatchCountDropPrefix(m: seq<bool>, f: nat)
    requires f <= |m|
    requires forall i :: 0 <= i < f ==> !m[i]
    ensures MatchCount(m) == MatchCount(m[f..])
  {
    var pre, rest := m[..f], m[f..];
    assert m == pre + rest;
    MatchCountAppend(pre, rest);
    MatchCountNone(pre);
  }

  /** Dropping an unmatched suffix keeps the count. */
  lemma MatchCountDropSuffix(m: seq<bool>, e: nat)
    requires e <= |m|
    requires forall i :: e <= i < |m| ==> !m[i]
    ensures MatchCount(m) == MatchCount(m[..e])
  {
    var pre, post := m[..e], m[e..];
    assert m == pre + post;
    MatchCountAppend(pre, post);
    forall i | 0 <= i < |post| ensures !post[i] { assert post[i] == m[e + i]; }
    MatchCountNone(post);
  }

  /** Dropping unmatched borders keeps the count. */
  lemma MatchCountTrim(m: seq<bool>, f: nat, e: nat)
    requires f <= e <= |m|
    requires forall i :: 0 <= i < f ==> !m[i]
    requires forall i :: e <= i < |m| ==> !m[i]
    ensures MatchCount(m) == MatchCount(m[f..e])
  {
    MatchCountDropPrefix(m, f);
    var rest := m[f..];
    forall i | e - f <= i < |rest| ensures !rest[i] { assert rest[i] == m[f + i]; }
    MatchCountDropSuffix(rest, e - f);
    assert rest[..e - f] == m[f..e];
  }

  lemma MatchCountInSpan(m: seq<bool>)
    requires FirstMatch(m) < MatchEnd(m)
    ensures MatchCount(m) == MatchCount(m[FirstMatch(m)..MatchEnd(m)])
  {
    MatchCountTrim(m, FirstMatch(m), MatchEnd(m));
  }

  /** A match is one run exactly when every position of its span matched. */
  lemma ContiguousSpan(m: seq<bool>)
    ensures Contiguous(m) <==> forall j :: FirstMatch(m) <= j < MatchEnd(m) ==> m[j]
  {
    var f, e := FirstMatch(m), MatchEnd(m);
    if Contiguous(m) {
      forall j | f <= j < e ensures m[j] {
        if f < j < e - 1 { assert m[f] && m[e - 1]; }
      }
    }
    if forall j :: f <= j < e ==> m[j] {
      forall i, j, k | 0 <= i < j < k < |m| && m[i] && m[k] ensures m[j] {
        assert f <= i && k < e;
      }
    }
  }

  /** A slice is fully matched exactly when every position in its range is. */
  lemma SliceFull(m: seq<bool>, f: nat, e: nat)
    requires f <= e <= |m|
    ensures MatchCount(m[f..e]) == e - f <==> forall j :: f <= j < e ==> m[j]
  {
    var inner := m[f..e];
    MatchCountFull(inner);
    forall j | f <= j < e ensures inner[j - f] == m[j] { }
  }

  /** The legacy score is never positive, and it is zero exactly when the
      matched positions form one run: any gap inside the match costs. */
  lemma LegacyScoreCompact(m: seq<bool>)
    ensures LegacyScore(m) <= 0
    ensures LegacyScore(m) == 0 <==> Contiguous(m)
  {
    var f, e := FirstMatch(m), MatchEnd(m);
    ContiguousSpan(m);
    if f < e {
      MatchCountInSpan(m);
      SliceFull(m, f, e);
    }
  }

  /** Every leading unmatched character costs the default score one point. */
  lemma DefaultScoreLaterStart(m: seq<bool>)
    ensures DefaultScore([false] + m) == DefaultScore(m) - 1
  {
    assert ([false] + m)[1..] == m;
  }

  /** Fewer adjacent pairs than matched positions; none without a match. */
  lemma {:induction false} AdjacentBound(m: seq<bool>)
    ensures MatchCount(m) == 0 ==> Adjacent(m) == 0
    ensures MatchCount(m) > 0 ==> Adjacent(m) < MatchCount(m)
  {
    if |m| >= 2 {
      AdjacentBound(m[1..]);
      assert m[1..][0] == m[1];
    }
  }

  /** The default score never exceeds the count of matched positions less
      one, less the start index. */
  lemma DefaultScoreBound(m: seq<bool>)
    requires MatchCount(m) > 0
    ensures DefaultScore(m) <= MatchCount(m) - 1 - FirstMatch(m)
  {
    AdjacentBound(m);
  }

  function Score(m: seq<bool>, legacy: bool): int {
    if legacy then LegacyScore(m) else DefaultScore(m)
  }

  // ---------------------------------------------------------------------
  // Filtering and highlighting.

  /** A surviving candidate: the item as returned (highlighted label, literal
      insert text), its score and the unhighlighted label used for ties. */
  datatype Ranked = Ranked(item: CompletionItem, score: int, key: string)

  /** The label with the runs the query matches wrapped in `<mark>` tags; the
      label itself when the query does not match it. */
  function MarkLabel(text: string, q: string): (r: string)
    ensures '<' !in text ==> StripMarks(r) == text
    ensures '<' !in text && MatchMask(q, text).Some? ==> Marked(r, false) == q
    ensures '<' !in text && MatchMask(q, text).Some? ==>
              MarkedMask(r, false) == MatchMask(q, text).value && NoReopen(r, false)
    ensures MatchMask(q, text).None? ==> r == text
  {
    match MatchMask(q, text)
    case Some(m) =>
      (if '<' !in text then HighlightRoundTrip(text, m); HighlightMarks(text, m); Highlight(text, m)
       else Highlight(text, m))
    case None => (if '<' !in text then StripUnmarked(text); text else text)
  }

  /** One candidate against the query: None when the query does not match
      its filter text. */
  function Rank(it: CompletionItem, q: string, legacy: bool): (r: Option<Ranked>)
    ensures r.Some? ==> r.value.item.labelText == MarkLabel(it.labelText, q)
    ensures r.Some? ==> r.value.key == it.labelText && r.value.item.insertText == Some(FilterText(it))
    ensures r.Some? && it.insertText.Some? ==> r.value.item.insertText == it.insertText
    ensures r.Some? && '<' !in it.labelText ==> StripMarks(r.value.item.labelText) == it.labelText
  {
    match MatchMask(q, FilterText(it))
    case Some(m) => Some(Ranked(CompletionItem(MarkLabel(it.labelText, q), Some(FilterText(it))), Score(m, legacy), it.labelText))
    case None => None
  }

  /** A candidate survives exactly when the query is a subsequence of its
      filter text. */
  lemma RankSome(it: CompletionItem, q: string, legacy: bool)
    ensures Rank(it, q, legacy).Some? <==> IsSubsequence(q, FilterText(it))
  {
    MatchMaskIffSubsequence(q, FilterText(it));
  }

  /** The candidates the query matches, in their original order. */
  function RankAll(items: seq<CompletionItem>, q: string, legacy: bool): (r: seq<Ranked>)
    ensures |r| <= |items|
  {
    if items == [] then []
    else
      match Rank(items[0], q, legacy)
      case Some(x) => [x] + RankAll(items[1..], q, legacy)
      case None => RankAll(items[1..], q, legacy)
  }

  /** `x` is the ranking of some candidate in `items`. */
  ghost predicate RankedFrom(items: seq<CompletionItem>, q: string, legacy: bool, x: Ranked) {
    exists i :: 0 <= i < |items| && Rank(items[i], q, legacy) == Some(x)
  }

  /** A ranked entry survives exactly when it is the ranking of some
      candidate the query matches. */
  lemma {:induction false} RankAllMembers(items: seq<CompletionItem>, q: string, legacy: bool, x: Ranked)
    ensures x in RankAll(items, q, legacy) <==> RankedFrom(items, q, legacy, x)
  {
    if items != [] {
      var rest := items[1..];
      RankAllMembers(rest, q, legacy, x);
      var head := Rank(items[0], q, legacy);
      assert RankAll(items, q, legacy) == (if head.Some? then [head.value] else []) + RankAll(rest, q, legacy);
      if x in RankAll(items, q, legacy) && head != Some(x) {
        var i :| 0 <= i < |rest| && Rank(rest[i], q, legacy) == Some(x);
        assert items[i + 1] == rest[i];
      }
      if RankedFrom(items, q, legacy, x) && head != Some(x) {
        var i :| 0 <= i < |items| && Rank(items[i], q, legacy) == Some(x);
        assert i > 0 && rest[i - 1] == items[i];
      }
    }
  }

  // ---------------------------------------------------------------------
  // Ordering.

  /** `a` may come before `b`: higher score first, equal scores by label. */
  predicate Before(a: Ranked, b: Ranked) {
    a.score > b.score || (a.score == b.score && LexLe(a.key, b.key))
  }

  lemma BeforeTotal(a: Ranked, b: Ranked)
    ensures Before(a, b) || Before(b, a)
  {
    LexLeTotal(a.key, b.key);
  }

  lemma BeforeTransitive(a: Ranked, b: Ranked, c: Ranked)
    requires Before(a, b) && Before(b, c)
    ensures Before(a, c)
  {
    if a.score == b.score == c.score {
      LexLeTransitive(a.key, b.key, c.key);
    }
  }

  /** Two entries tie both ways only when score and label agree. */
  lemma BeforeAntisymmetric(a: Ranked, b: Ranked)
    requires Before(a, b) && Before(b, a)
    ensures a.score == b.score && a.key == b.key
  {
    if a.score == b.score {
      LexLeAntisymmetric(a.key, b.key);
    }
  }

  predicate Sorted(s: seq<Ranked>) {
    forall i, j :: 0 <= i < j < |s| ==> Before(s[i], s[j])
  }

  function Insert(x: Ranked, s: seq<Ranked>): (r: seq<Ranked>)
    ensures |r| == |s| + 1
  {
    if s == [] then [x]
    else if Before(x, s[0]) then [x] + s
    else [s[0]] + Insert(x, s[1..])
  }

  function SortRanked(s: seq<Ranked>): (r: seq<Ranked>)
    ensures |r| == |s|
  {
    if s == [] then [] else Insert(s[0], SortRanked(s[1..]))
  }

  lemma ConsMultiset(h: Ranked, t: seq<Ranked>, x: Ranked, r: seq<Ranked>)
    requires multiset(r) == multiset(t) + multiset{x}
    ensures multiset([h] + r) == multiset([h] + t) + multiset{x}
  {
    assert multiset([h] + r) == multiset{h} + multiset(r);
    assert multiset([h] + t) == multiset{h} + multiset(t);
  }

  lemma {:induction false} InsertPermutes(x: Ranked, s: seq<Ranked>)
    ensures multiset(Insert(x, s)) == multiset(s) + multiset{x}
  {
    if s == [] {
      assert Insert(x, s) == [x];
    } else if Before(x, s[0]) {
      assert Insert(x, s) == [x] + s;
      assert multiset([x] + s) == multiset{x} + multiset(s);
    } else {
      var h, t := s[0], s[1..];
      InsertPermutes(x, t);
      ConsMultiset(h, t, x, Insert(x, t));
      assert Insert(x, s) == [h] + Insert(x, t);
      assert s == [h] + t;
    }
  }

  lemma {:induction false} InsertSorted(x: Ranked, s: seq<Ranked>)
    requires Sorted(s)
    ensures Sorted(Insert(x, s))
  {
    if s == [] {
    } else if Before(x, s[0]) {
      forall j | 0 < j < |s| ensures Before(x, s[j]) {
        BeforeTransitive(x, s[0], s[j]);
      }
    } else {
      BeforeTotal(x, s[0]);
      var t := Insert(x, s[1..]);
      InsertSorted(x, s[1..]);
      InsertPermutes(x, s[1..]);
      forall j | 0 <= j < |t| ensures Before(s[0], t[j]) {
        assert t[j] in multiset(t);
        if t[j] != x {
          assert t[j] in multiset(s[1..]);
          var k :| 0 <= k < |s[1..]| && s[1..][k] == t[j];
          assert s[k + 1] == t[j];
        }
      }
    }
  }

  /** Sorting yields a sorted permutation of its input. */
  lemma {:induction false} SortRankedCorrect(s: seq<Ranked>)
    ensures Sorted(SortRanked(s))
    ensures multiset(SortRanked(s)) == multiset(s)
  {
    if s != [] {
      SortRankedCorrect(s[1..]);
      InsertSorted(s[0], SortRanked(s[1..]));
      InsertPermutes(s[0], SortRanked(s[1..]));
      assert s == [s[0]] + s[1..];
    }
  }

  // ---------------------------------------------------------------------
  // The query view.

  /** The matching candidates in display order. */
  function RankedView(raw: CompletionList, q: string, legacy: bool): seq<Ranked> {
    SortRanked(RankAll(raw.items, q, legacy))
  }

  function ItemsOf(rs: seq<Ranked>): (r: seq<CompletionItem>)
    ensures |r| == |rs| && forall i :: 0 <= i < |rs| ==> r[i] == rs[i].item
  {
    seq(|rs|, i requires 0 <= i < |rs| => rs[i].item)
  }

  /** `items()`: the raw list itself for a blank query; otherwise the
      candidates the query matches, highlighted and in display order. */
  function Items(raw: CompletionList, q: string, legacy: bool): (r: CompletionList)
    ensures r.isIncomplete == raw.isIncomplete
    ensures q == [] ==> r == raw
    ensures |r.items| <= |raw.items|
  {
    if q == [] then raw else CompletionList(raw.isIncomplete, ItemsOf(RankedView(raw, q, legacy)))
  }

  /** For a non-blank query the returned items are, in order, the items of a
      sorted arrangement of exactly the matching candidates. */
  lemma ItemsRanked(raw: CompletionList, q: string, legacy: bool)
    requires q != []
    ensures Items(raw, q, legacy).items == ItemsOf(RankedView(raw, q, legacy))
    ensures Sorted(RankedView(raw, q, legacy))
    ensures forall x :: x in RankedView(raw, q, legacy) <==> RankedFrom(raw.items, q, legacy, x)
    ensures multiset(RankedView(raw, q, legacy)) == multiset(RankAll(raw.items, q, legacy))
  {
    SortRankedCorrect(RankAll(raw.items, q, legacy));
    forall x ensures x in RankedView(raw, q, legacy) <==> RankedFrom(raw.items, q, legacy, x)
    {
      RankAllMembers(raw.items, q, legacy, x);
      assert x in RankedView(raw, q, legacy) <==> x in multiset(RankedView(raw, q, legacy));
    }
  }

  /** Number of candidates whose filter text the query matches. */
  ghost function MatchingCount(items: seq<CompletionItem>, q: string): nat {
    if items == [] then 0
    else (if IsSubsequence(q, FilterText(items[0])) then 1 else 0) + MatchingCount(items[1..], q)
  }

  /** Filtering keeps one entry per matching candidate. */
  lemma {:induction false} RankAllCount(items: seq<CompletionItem>, q: string, legacy: bool)
    ensures |RankAll(items, q, legacy)| == MatchingCount(items, q)
  {
    if items != [] {
      RankSome(items[0], q, legacy);
      RankAllCount(items[1..], q, legacy);
    }
  }

  /** For a non-blank query `items()` returns as many items as there are
      matching candidates. */
  lemma ItemsCount(raw: CompletionList, q: string, legacy: bool)
    requires q != []
    ensures |Items(raw, q, legacy).items| == MatchingCount(raw.items, q)
  {
    RankAllCount(raw.items, q, legacy);
  }

  /** Every item returned for a non-blank query comes from a candidate the
      query matches: same insert text, and the same label once the `<mark>`
      tags are removed (for labels without a `<` of their own). */
  lemma ItemsSound(raw: CompletionList, q: string, legacy: bool, k: nat)
    requires q != [] && k < |Items(raw, q, legacy).items|
    ensures exists i :: 0 <= i < |raw.items| && IsSubsequence(q, FilterText(raw.items[i])) &&
              Items(raw, q, legacy).items[k].insertText == Some(FilterText(raw.items[i])) &&
              ('<' !in raw.items[i].labelText ==>
                 StripMarks(Items(raw, q, legacy).items[k].labelText) == raw.items[i].labelText)
  {
    ItemsRanked(raw, q, legacy);
    var rs := RankedView(raw, q, legacy);
    assert rs[k] in rs;
    var i :| 0 <= i < |raw.items| && Rank(raw.items[i], q, legacy) == Some(rs[k]);
    RankSome(raw.items[i], q, legacy);
    assert Items(raw, q, legacy).items[k] == rs[k].item;
  }

  /** Every candidate the query matches is returned for a non-blank query,
      with its insert text and its label highlighted. */
  lemma ItemsComplete(raw: CompletionList, q: string, legacy: bool, i: nat)
    requires q != [] && i < |raw.items| && IsSubsequence(q, FilterText(raw.items[i]))
    ensures exists k :: 0 <= k < |Items(raw, q, legacy).items| &&
              Items(raw, q, legacy).items[k] ==
                CompletionItem(MarkLabel(raw.items[i].labelText, q), Some(FilterText(raw.items[i])))
  {
    ItemsRanked(raw, q, legacy);
    var rs := RankedView(raw, q, legacy);
    RankSome(raw.items[i], q, legacy);
    var x := Rank(raw.items[i], q, legacy).value;
    assert RankedFrom(raw.items, q, legacy, x);
    var k :| 0 <= k < |rs| && rs[k] == x;
    assert Items(raw, q, legacy).items[k] == x.item;
  }
}

=== FILE: ranking_examples.dfy ===
/** The three query views the model's item tests pin down, worked out on the
    ranking functions. */
module RankingExamples {
  import opened Wrappers
  import opened Matching
  import opened Ranking

  /** A candidate whose insert text is its label. */
  function Plain(s: string): CompletionItem {
    CompletionItem(s, Some(s))
  }

  /** The five candidates of the ordering tests. */
  function FiveItems(): seq<CompletionItem> {
    [Plain("foo"), Plain("bar"), Plain("baz"), Plain("quux"), Plain("qux")]
  }

  /** A query whose first character does not occur in a text never matches it. */
  lemma {:induction false} MatchAbsent(q: string, t: string)
    requires q != [] && q[0] !in t
    ensures MatchMask(q, t) == None
  {
    if t != [] {
      assert q[0] != t[0];
      assert q[0] !in t[1..] by { assert forall c :: c in t[1..] ==> c in t; }
      MatchAbsent(q, t[1..]);
    }
  }

  // Single unfolding steps of the matcher and of the renderer on the
  // candidates above.

  lemma MatchF() ensures MatchMask("f", "foo") == Some([true, false, false]) {
    var e: string := [];
    assert MatchMask(e, e) == Some([]);
    assert "foo"[1..] == "oo" && "oo"[1..] == "o" && "o"[1..] == e && "f"[1..] == e;
    assert MatchMask(e, "o") == Some([false]) by { assert [false] + [] == [false]; }
    assert MatchMask(e, "oo") == Some([false, false]) by { assert [false] + [false] == [false, false]; }
    assert [true] + [false, false] == [true, false, false];
  }

  lemma MatchXX() ensures MatchMask("x", "x") == Some([true]) {
    var e: string := [];
    assert "x"[1..] == e;
    assert MatchMask(e, e) == Some([]);
    assert [true] + [] == [true];
  }

  lemma MatchQuxQuux() ensures MatchMask("qux", "quux") == Some([true, true, false, true]) {
    MatchXX();
    assert "ux"[1..] == "x" && "uux"[1..] == "ux" && "quux"[1..] == "uux" && "qux"[1..] == "ux";
    assert MatchMask("x", "ux") == Some([false, true]) by { assert [false] + [true] == [false, true]; }
    assert MatchMask("ux", "uux") == Some([true, false, true]) by { assert [true] + [false, true] == [true, false, true]; }
    assert [true] + [true, false, true] == [true, true, false, true];
  }

  lemma MatchQuxQux() ensures MatchMask("qux", "qux") == Some([true, true, true]) {
    MatchXX();
    assert "ux"[1..] == "x" && "qux"[1..] == "ux";
    assert MatchMask("ux", "ux") == Some([true, true]) by { assert [true] + [true] == [true, true]; }
    assert [true] + [true, true] == [true, true, true];
  }

  lemma MatchQuQuux() ensures MatchMask("qu", "quux") == Some([true, true, false, false]) {
    var e: string := [];
    assert MatchMask(e, e) == Some([]);
    assert "x"[1..] == e && "ux"[1..] == "x" && "uux"[1..] == "ux" && "quux"[1..] == "uux";
    assert "qu"[1..] == "u" && "u"[1..] == e;
    assert MatchMask(e, "x") == Some([false]) by { assert [false] + [] == [false]; }
    assert MatchMask(e, "ux") == Some([false, false]) by { assert [false] + [false] == [false, false]; }
    assert MatchMask("u", "uux") == Some([true, false, false]) by { assert [true] + [false, false] == [true, false, false]; }
    assert [true] + [true, false, false] == [true, true, false, false];
  }

  lemma MatchQuQux() ensures MatchMask("qu", "qux") == Some([true, true, false]) {
    var e: string := [];
    assert MatchMask(e, e) == Some([]);
    assert "x"[1..] == e && "ux"[1..] == "x" && "qux"[1..] == "ux";
    assert "qu"[1..] == "u" && "u"[1..] == e;
    assert MatchMask(e, "x") == Some([false]) by { assert [false] + [] == [false]; }
    assert MatchMask("u", "ux") == Some([true, false]) by { assert [true] + [false] == [true, false]; }
    assert [true] + [true, false] == [true, true, false];
  }

  lemma RenderFoo() ensures Highlight("foo", [true, false, false]) == "<mark>f</mark>oo" {
    var e: string := [];
    assert "foo"[1..] == "oo" && "oo"[1..] == "o" && "o"[1..] == e;
    assert [true, false, false][1..] == [false, false] && [false, false][1..] == [false] && [false][1..] == [];
  }

  lemma RenderMarkedX() ensures Render("x", [true], false) == "<mark>x</mark>" {
    var e: string := [];
    assert "x"[1..] == e && [true][1..] == [];
  }

  lemma RenderUx() ensures Render("ux", [false, true], true) == "</mark>u<mark>x</mark>" {
    RenderMarkedX();
    assert "ux"[1..] == "x" && [false, true][1..] == [true];
  }

  lemma RenderUux() ensures Render("uux", [true, false, true], true) == "u</mark>u<mark>x</mark>" {
    assert "uux"[1..] == "ux" && [true, false, true][1..] == [false, true];
    assert Render("uux", [true, false, true], true) == ['u'] + Render("ux", [false, true], true);
    RenderUx();
  }

  lemma RenderQuux() ensures Highlight("quux", [true, true, false, true]) == "<mark>qu</mark>u<mark>x</mark>" {
    RenderUux();
    assert "quux"[1..] == "uux" && [true, true, false, true][1..] == [true, false, true];
  }

  lemma RenderQux() ensures Highlight("qux", [true, true, true]) == "<mark>qux</mark>" {
    var e: string := [];
    assert "qux"[1..] == "ux" && "ux"[1..] == "x" && "x"[1..] == e;
    assert [true, true, true][1..] == [true, true] && [true, true][1..] == [true] && [true][1..] == [];
    assert Render("x", [true], true) == "x</mark>";
  }

  lemma RenderQuQuux() ensures Highlight("quux", [true, true, false, false]) == "<mark>qu</mark>ux" {
    var e: string := [];
    assert "quux"[1..] == "uux" && "uux"[1..] == "ux" && "ux"[1..] == "x" && "x"[1..] == e;
    assert [true, true, false, false][1..] == [true, false, false];
    assert [true, false, false][1..] == [false, false] && [false, false][1..] == [false] && [false][1..] == [];
    assert Render("x", [false], false) == "x";
    assert Render("ux", [false, false], true) == "</mark>ux";
  }

  lemma RenderQuQux() ensures Highlight("qux", [true, true, false]) == "<mark>qu</mark>x" {
    var e: string := [];
    assert "qux"[1..] == "ux" && "ux"[1..] == "x" && "x"[1..] == e;
    assert [true, true, false][1..] == [true, false] && [true, false][1..] == [false] && [false][1..] == [];
    assert Render("x", [false], true) == "</mark>x";
  }

  lemma LegacyScores()
    ensures LegacyScore([true, true, false, true]) == -1
    ensures LegacyScore([true, true, true]) == 0
  {
    var m := [true, true, false, true];
    assert m[1..] == [true, false, true] && m[1..][1..] == [false, true] && m[1..][1..][1..] == [true];
    assert MatchCount(m) == 3;
    var n := [true, true, true];
    assert n[1..] == [true, true] && n[1..][1..] == [true];
    assert MatchCount(n) == 3;
  }

  lemma DefaultScores()
    ensures DefaultScore([true, true, false, false]) == 1
    ensures DefaultScore([true, true, false]) == 1
  {
    var m := [true, true, false, false];
    assert m[1..] == [true, false, false] && m[1..][1..] == [false, false] && m[1..][1..][1..] == [false];
    var n := [true, true, false];
    assert n[1..] == [true, false] && n[1..][1..] == [false];
  }

  lemma QuuxBeforeQux() ensures LexLe("quux", "qux") {
    assert "quux"[1..] == "uux" && "qux"[1..] == "ux";
    assert "uux"[1..] == "ux" && "ux"[1..] == "x";
  }

  /** Candidates without a `q` drop out of every query starting with `q`. */
  lemma NoQ(q: string, legacy: bool)
    requires q != [] && q[0] == 'q'
    ensures Rank(Plain("foo"), q, legacy) == None
    ensures Rank(Plain("bar"), q, legacy) == None
    ensures Rank(Plain("baz"), q, legacy) == None
  {
    MatchAbsent(q, "foo");
    MatchAbsent(q, "bar");
    MatchAbsent(q, "baz");
  }

  /** Query "f" over foo, bar and baz keeps only foo, with its first letter
      marked and its insert text untouched. */
  lemma FilterExample()
    ensures Items(CompletionList(false, [Plain("foo"), Plain("bar"), Plain("baz")]), "f", false)
         == CompletionList(false, [CompletionItem("<mark>f</mark>oo", Some("foo"))])
  {
    var items := [Plain("foo"), Plain("bar"), Plain("baz")];
    MatchF();
    RenderFoo();
    MatchAbsent("f", "bar");
    MatchAbsent("f", "baz");
    var x := Ranked(CompletionItem("<mark>f</mark>oo", Some("foo")), DefaultScore([true, false, false]), "foo");
    assert Rank(items[0], "f", false) == Some(x);
    assert items[1..][1..][1..] == [];
    assert RankAll(items, "f", false) == [x];
  }

  /** The entries quux and qux become under a query and strategy. */
  function QuuxEntry(marked: string, score: int): Ranked {
    Ranked(CompletionItem(marked, Some("quux")), score, "quux")
  }

  function QuxEntry(marked: string, score: int): Ranked {
    Ranked(CompletionItem(marked, Some("qux")), score, "qux")
  }

  lemma RankQuuxLegacy()
    ensures Rank(Plain("quux"), "qux", true) == Some(QuuxEntry("<mark>qu</mark>u<mark>x</mark>", -1))
  {
    MatchQuxQuux();
    RenderQuux();
    LegacyScores();
  }

  lemma RankQuxLegacy()
    ensures Rank(Plain("qux"), "qux", true) == Some(QuxEntry("<mark>qux</mark>", 0))
  {
    MatchQuxQux();
    RenderQux();
    LegacyScores();
  }

  lemma RankQuuxDefault()
    ensures Rank(Plain("quux"), "qu", false) == Some(QuuxEntry("<mark>qu</mark>ux", 1))
  {
    MatchQuQuux();
    RenderQuQuux();
    DefaultScores();
  }

  lemma RankQuxDefault()
    ensures Rank(Plain("qux"), "qu", false) == Some(QuxEntry("<mark>qu</mark>x", 1))
  {
    MatchQuQux();
    RenderQuQux();
    DefaultScores();
  }

  lemma RankAllCons(x: CompletionItem, rest: seq<CompletionItem>, q: string, legacy: bool)
    ensures RankAll([x] + rest, q, legacy)
         == (if Rank(x, q, legacy).Some? then [Rank(x, q, legacy).value] else []) + RankAll(rest, q, legacy)
  {
    assert ([x] + rest)[1..] == rest;
  }

  /** Five candidates of which only the fourth and fifth match. */
  lemma RankAllLastTwo(i0: CompletionItem, i1: CompletionItem, i2: CompletionItem, i3: CompletionItem,
                       i4: CompletionItem, q: string, legacy: bool, a: Ranked, b: Ranked)
    requires Rank(i0, q, legacy).None? && Rank(i1, q, legacy).None? && Rank(i2, q, legacy).None?
    requires Rank(i3, q, legacy) == Some(a) && Rank(i4, q, legacy) == Some(b)
    ensures RankAll([i0, i1, i2, i3, i4], q, legacy) == [a, b]
  {
    var e: seq<CompletionItem> := [];
    var s4 := [i4] + e;
    var s3 := [i3] + s4;
    var s2 := [i2] + s3;
    var s1 := [i1] + s2;
    var none: seq<Ranked> := [];
    assert RankAll(s4, q, legacy) == [b] by {
      RankAllCons(i4, e, q, legacy);
      assert RankAll(e, q, legacy) == none;
      assert [b] + none == [b];
    }
    assert RankAll(s3, q, legacy) == [a, b] by {
      RankAllCons(i3, s4, q, legacy);
      assert [a] + [b] == [a, b];
    }
    assert RankAll(s2, q, legacy) == [a, b] by { RankAllCons(i2, s3, q, legacy); }
    assert RankAll(s1, q, legacy) == [a, b] by { RankAllCons(i1, s2, q, legacy); }
    assert RankAll([i0] + s1, q, legacy) == [a, b] by { RankAllCons(i0, s1, q, legacy); }
    assert [i0] + s1 == [i0, i1, i2, i3, i4];
  }

  /** Over the five candidates, a query starting with `q` keeps just the
      entries of quux and qux, in that order. */
  lemma RankAllFive(items: seq<CompletionItem>, q: string, legacy: bool, a: Ranked, b: Ranked)
    requires items == FiveItems()
    requires q != [] && q[0] == 'q'
    requires Rank(Plain("quux"), q, legacy) == Some(a)
    requires Rank(Plain("qux"), q, legacy) == Some(b)
    ensures RankAll(items, q, legacy) == [a, b]
  {
    NoQ(q, legacy);
    RankAllLastTwo(Plain("foo"), Plain("bar"), Plain("baz"), Plain("quux"), Plain("qux"), q, legacy, a, b);
  }

  /** When exactly two candidates match, `items()` lists them in ranking order. */
  lemma ItemsOfTwo(raw: CompletionList, q: string, legacy: bool, a: Ranked, b: Ranked)
    requires q != [] && RankAll(raw.items, q, legacy) == [a, b]
    ensures Items(raw, q, legacy).items == if Before(a, b) then [a.item, b.item] else [b.item, a.item]
  {
    var e: seq<Ranked> := [];
    assert [b][1..] == e;
    assert SortRanked([b]) == Insert(b, e) == [b];
    assert [a, b][1..] == [b];
    assert SortRanked([a, b]) == Insert(a, [b]);
    assert Insert(a, e) == [a];
    assert [a] + [b] == [a, b] && [b] + [a] == [b, a];
  }

  /** In legacy mode the compact match qux outranks the scattered quux. */
  lemma LegacyOrderExample(raw: CompletionList)
    requires raw == CompletionList(false, FiveItems())
    ensures Items(raw, "qux", true).items
         == [CompletionItem("<mark>qux</mark>", Some("qux")),
             CompletionItem("<mark>qu</mark>u<mark>x</mark>", Some("quux"))]
  {
    var a := QuuxEntry("<mark>qu</mark>u<mark>x</mark>", -1);
    var b := QuxEntry("<mark>qux</mark>", 0);
    RankQuuxLegacy();
    RankQuxLegacy();
    RankAllFive(raw.items, "qux", true, a, b);
    ItemsOfTwo(raw, "qux", true, a, b);
  }

  /** With equal default scores, quux and qux keep lexicographic order. */
  lemma TieBreakExample(raw: CompletionList)
    requires raw == CompletionList(false, FiveItems())
    ensures Items(raw, "qu", false).items
         == [CompletionItem("<mark>qu</mark>ux", Some("quux")),
             CompletionItem("<mark>qu</mark>x", Some("qux"))]
  {
    var a := QuuxEntry("<mark>qu</mark>ux", 1);
    var b := QuxEntry("<mark>qu</mark>x", 1);
    RankQuuxDefault();
    RankQuxDefault();
    RankAllFive(raw.items, "qu", false, a, b);
    QuuxBeforeQux();
    ItemsOfTwo(raw, "qu", false, a, b);
  }
}

=== FILE: scenarios.dfy ===
/** The behaviour the model's test suite asserts, replayed on the class: each
    method drives a fresh model through the steps of one test and returns
    what that test observes. */
module CompleterScenarios {
  import opened Wrappers
  import opened TextStates
  import opened Ranking
  import opened RankingExamples
  import opened Completer

  /** A candidate with a label and no insert text. */
  function Labelled(s: string): CompletionItem {
    CompletionItem(s, None)
  }

  /** Observes the notification count around repeated item deliveries: the
      first list notifies, the same labels again do not, a longer list does. */
  method ItemsChangeSignals() returns (calls: seq<nat>)
    ensures calls == [0, 1, 2]
  {
    var m := new CompleterModel();
    calls := [m.emitted];
    m.SetItems(CompletionList(false, [Labelled("foo")]));
    calls := calls + [m.emitted];
    m.SetItems(CompletionList(false, [Labelled("foo")]));
    m.SetItems(CompletionList(false, [Labelled("foo"), Labelled("bar")]));
    calls := calls + [m.emitted];
  }

  /** Equal lists, including an empty list delivered three times, notify once. */
  method SameItemsDoNotSignal() returns (calls: seq<nat>)
    ensures calls == [0, 1, 2, 3]
  {
    var m := new CompleterModel();
    calls := [m.emitted];
    m.SetItems(CompletionList(false, [Labelled("foo")]));
    m.SetItems(CompletionList(false, [Labelled("foo")]));
    calls := calls + [m.emitted];
    m.SetItems(CompletionList(false, [Labelled("foo"), Labelled("bar")]));
    m.SetItems(CompletionList(false, [Labelled("foo"), Labelled("bar")]));
    calls := calls + [m.emitted];
    m.SetItems(EmptyList);
    m.SetItems(EmptyList);
    m.SetItems(EmptyList);
    calls := calls + [m.emitted];
  }

  /** Setting and clearing the request notify once each; repeating either
      does not. */
  method OriginalSignals() returns (calls: seq<nat>)
    ensures calls == [0, 1, 2]
  {
    var m := new CompleterModel();
    calls := [m.emitted];
    m.SetOriginal(Some(MakeState("foo")));
    m.SetOriginal(Some(MakeState("foo")));
    calls := calls + [m.emitted];
    m.SetOriginal(None);
    m.SetOriginal(None);
    calls := calls + [m.emitted];
  }

  /** With a request and a cursor, a new current text notifies once, clearing
      it once more; the cursor and the repeats notify nothing. */
  method CurrentSignals() returns (calls: seq<nat>)
    ensures calls == [0, 1, 2, 3]
  {
    var m := new CompleterModel();
    calls := [m.emitted];
    m.SetOriginal(Some(MakeState("foo")));
    calls := calls + [m.emitted];
    m.SetCursor(Some(CursorSpan(0, 0)));
    m.SetCurrent(Some(MakeState("foob")));
    m.SetCurrent(Some(MakeState("foob")));
    calls := calls + [m.emitted];
    m.SetCurrent(None);
    m.SetCurrent(None);
    calls := calls + [m.emitted];
  }

  /** A blank query shows the raw candidates unchanged. */
  method BlankQueryItems() returns (items: seq<CompletionItem>)
    ensures items == [Labelled("foo"), Labelled("bar"), Labelled("baz")]
  {
    var m := new CompleterModel();
    m.SetItems(CompletionList(false, [Labelled("foo"), Labelled("bar"), Labelled("baz")]));
    items := m.ItemsView().items;
  }

  /** Query "f" keeps foo alone, its first letter marked. */
  method FilteredItems() returns (items: seq<CompletionItem>)
    ensures items == [CompletionItem("<mark>f</mark>oo", Some("foo"))]
  {
    var m := new CompleterModel();
    m.SetItems(CompletionList(false, [Plain("foo"), Plain("bar"), Plain("baz")]));
    m.SetQuery("f");
    FilterExample();
    items := m.ItemsView().items;
  }

  /** Legacy ranking of "qux": the compact match first. */
  method LegacyOrderedItems() returns (items: seq<CompletionItem>)
    ensures items == [CompletionItem("<mark>qux</mark>", Some("qux")),
                      CompletionItem("<mark>qu</mark>u<mark>x</mark>", Some("quux"))]
  {
    var m := new CompleterModel();
    m.SetItems(CompletionList(false, FiveItems()));
    m.SetLegacy(true);
    m.SetQuery("qux");
    LegacyOrderExample(m.rawItems);
    items := m.ItemsView().items;
  }

  /** Default ranking of "qu": an equal score, broken by label order. */
  method TieBrokenItems() returns (items: seq<CompletionItem>)
    ensures items == [CompletionItem("<mark>qu</mark>ux", Some("quux")),
                      CompletionItem("<mark>qu</mark>x", Some("qux"))]
  {
    var m := new CompleterModel();
    m.SetItems(CompletionList(false, FiveItems()));
    m.SetQuery("qu");
    TieBreakExample(m.rawItems);
    items := m.ItemsView().items;
  }

  /** The request, the current text and the cursor start out null; setting
      the request makes it and the current text that request. */
  method Defaults() returns (original: Option<TextState>, current: Option<TextState>,
                             cursor: Option<CursorSpan>, originalSet: Option<TextState>,
                             currentSet: Option<TextState>)
    ensures original == None && current == None && cursor == None
    ensures originalSet == Some(MakeState("foo")) && currentSet == Some(MakeState("foo"))
  {
    var m := new CompleterModel();
    original, current, cursor := m.original, m.current, m.cursor;
    m.SetOriginal(Some(MakeState("foo")));
    originalSet, currentSet := m.original, m.current;
  }

  /** The current text is refused without a request, then taken once the
      request and the cursor exist. */
  method CurrentNeedsOriginal() returns (refused: Option<TextState>, taken: Option<TextState>)
    ensures refused == None && taken == Some(MakeState("foob"))
  {
    var m := new CompleterModel();
    m.SetCurrent(Some(MakeState("foob")));
    refused := m.current;
    m.SetOriginal(Some(MakeState("foo")));
    m.SetCursor(Some(CursorSpan(0, 0)));
    m.SetCurrent(Some(MakeState("foob")));
    taken := m.current;
  }

  /** The current text is refused while the cursor is null. */
  method CurrentNeedsCursor() returns (current: Option<TextState>)
    ensures current != Some(MakeState("foob"))
  {
    var m := new CompleterModel();
    m.SetOriginal(Some(MakeState("foo")));
    m.SetCursor(None);
    m.SetCurrent(Some(MakeState("foob")));
    current := m.current;
  }

  /** A current text shorter than the request resets the model. */
  method ShorterCurrentResets() returns (current: Option<TextState>, original: Option<TextState>,
                                         items: CompletionList)
    ensures current == None && original == None && items == CompletionList(false, [])
  {
    var m := new CompleterModel();
    m.SetOriginal(Some(MakeState("foo")));
    m.SetCursor(Some(CursorSpan(0, 0)));
    m.SetCurrent(Some(MakeState("fo")));
    current, original, items := m.current, m.original, m.ItemsView();
  }

  /** The cursor is refused without a request and taken with one. */
  method CursorNeedsOriginal() returns (refused: Option<CursorSpan>, taken: Option<CursorSpan>)
    ensures refused == None && taken == Some(CursorSpan(0, 0))
  {
    var m := new CompleterModel();
    m.SetCursor(Some(CursorSpan(0, 0)));
    refused := m.cursor;
    m.SetOriginal(Some(MakeState("foo")));
    m.SetCursor(Some(CursorSpan(0, 0)));
    taken := m.cursor;
  }

  /** A model holding items is not disposed until `dispose()`. */
  method DisposeWithItems() returns (before: bool, after: bool)
    ensures !before && after
  {
    var m := new CompleterModel();
    m.SetItems(CompletionList(false, [Labelled("foo")]));
    before := m.isDisposed;
    m.Dispose();
    after := m.isDisposed;
  }

  /** Disposing twice is safe and leaves the model disposed. */
  method DisposeTwice() returns (before: bool, after: bool)
    ensures !before && after
  {
    var m := new CompleterModel();
    before := m.isDisposed;
    m.Dispose();
    m.Dispose();
    after := m.isDisposed;
  }

  /** A keystroke after a non-blank character becomes the current text. */
  method TextChangeSetsCurrent() returns (before: Option<TextState>, after: Option<TextState>)
    ensures before == Some(MakeState("foo")) && after == Some(TextState("foob", 4))
  {
    var m := new CompleterModel();
    m.SetOriginal(Some(MakeState("foo")));
    m.SetCursor(Some(CursorSpan(0, 0)));
    before := m.current;
    m.HandleTextChange(TextState("foob", 4));
    after := m.current;
  }

  /** A keystroke left of the request's column with nothing non-blank
      before it resets the request. */
  method TextChangeResets() returns (before: Option<TextState>, after: Option<TextState>)
    ensures before == Some(TextState("foo", 3)) && after == None
  {
    var m := new CompleterModel();
    m.SetOriginal(Some(TextState("foo", 3)));
    before := m.original;
    m.HandleTextChange(TextState("foo ", 0));
    after := m.original;
  }

  /** The patch spans the cursor. */
  method PatchValue() returns (p: Option<Patch>)
    ensures p == Some(Patch(0, 3, "foobar"))
  {
    var m := new CompleterModel();
    m.SetOriginal(Some(MakeState("foo")));
    m.SetCursor(Some(CursorSpan(0, 3)));
    p := m.CreatePatch("foobar");
  }

  /** Without a request there is no patch. */
  method PatchUndefined() returns (p: Option<Patch>)
    ensures p == None
  {
    var m := new CompleterModel();
    p := m.CreatePatch("foo");
  }

  /** Patch offsets count characters of the whole text, line breaks included. */
  method PatchAcrossLines() returns (p: Option<Patch>)
    ensures p == Some(Patch(7, 7, "barbaz"))
  {
    var m := new CompleterModel();
    var text := "foo\nbar";
    m.SetOriginal(Some(MakeState(text)));
    m.SetCursor(Some(CursorSpan(|text|, |text|)));
    p := m.CreatePatch("barbaz");
  }
}

=== FILE: text_state.dfy ===
/** The plain data shapes the completer model consumes and produces, and the
    few string operations on them. */
module TextStates {

  /** An editor text snapshot. Only `text` and `column` take part in the
      model's logic; line, line height, character width and coordinates do not. */
  datatype TextState = TextState(text: string, column: nat)

  /** A half-open character span [start, end) in the original text. */
  datatype CursorSpan = CursorSpan(start: nat, end: nat)

  /** A text replacement: put `value` in place of [start, end). */
  datatype Patch = Patch(start: nat, end: nat, value: string)

  /** The state `makeState(text)` builds: the given text, column 0. */
  function MakeState(text: string): (s: TextState)
    ensures s.text == text && s.column == 0
  {
    TextState(text, 0)
  }

  function Clamp(i: int, len: nat): (r: nat)
    ensures r <= len
    ensures 0 <= i <= len ==> r == i
  {
    if i < 0 then 0 else if i > len then len else i
  }

  /** JavaScript's `s.substring(a, b)`: both ends are clamped to the string
      and swapped when out of order. */
  function Substring(s: string, a: int, b: int): (r: string)
    ensures 0 <= a <= b <= |s| ==> r == s[a..b]
    ensures 0 <= b <= a <= |s| ==> r == s[b..a]
    ensures |r| <= |s|
  {
    var x, y := Clamp(a, |s|), Clamp(b, |s|);
    if x <= y then s[x..y] else s[y..x]
  }

  /** The characters the regular expression class `\s` matches, restricted
      to ASCII and the no-break space. */
  predicate IsWhitespace(c: char) {
    c == ' ' || c == '\t' || c == '\n' || c == '\r' || c == '\U{000B}' || c == '\U{000C}' || c == '\U{00A0}'
  }

  /** Whether the character just before `column` exists and is not blank. */
  predicate NonBlankBefore(text: string, column: nat) {
    0 < column <= |text| && !IsWhitespace(text[column - 1])
  }
}

=== FILE: transitions.dfy ===
/** The completer model's state machine as values: one function per
    operation, from the state before to the state after. The class in
    `Completer` runs these steps in place; the lemmas here state what the
    steps promise. */
module Transitions {
  import opened Wrappers
  import opened TextStates
  import opened Ranking

  /** Everything the model holds. `emitted` counts the change notifications
      delivered to listeners. */
  datatype ModelState = ModelState(
    original: Option<TextState>,
    cursor: Option<CursorSpan>,
    current: Option<TextState>,
    query: string,
    isLegacy: bool,
    rawItems: CompletionList,
    isDisposed: bool,
    emitted: nat)

  /** A freshly constructed model. */
  const Initial := ModelState(None, None, None, [], false, EmptyList, false, 0)

  /** The model's invariant: a cursor or a current state only exists beside
      an original request, and a disposed model holds nothing. */
  predicate Inv(s: ModelState) {
    (s.cursor.Some? ==> s.original.Some?) &&
    (s.current.Some? ==> s.original.Some?) &&
    (s.isDisposed ==> Idle(s))
  }

  /** No request, no cursor, no current text, no query and no candidates. */
  predicate Idle(s: ModelState) {
    s.original.None? && s.cursor.None? && s.current.None? && s.query == [] && s.rawItems == EmptyList
  }

  /** The full reset: request, cursor, current text, query and candidates
      cleared; mode, disposal and notification count kept. */
  function Cleared(s: ModelState): (r: ModelState)
    ensures Idle(r)
    ensures r.isLegacy == s.isLegacy && r.isDisposed == s.isDisposed && r.emitted == s.emitted
  {
    s.(original := None, cursor := None, current := None, query := [], rawItems := EmptyList)
  }

  function Notify(s: ModelState): ModelState {
    s.(emitted := s.emitted + 1)
  }

  /** `setItems(list)`: always takes the new list; notifies only when its
      length or some label differs from the old one. */
  function SetItemsStep(s: ModelState, list: CompletionList): ModelState {
    if s.isDisposed then s
    else if SameLabels(s.rawItems, list) then s.(rawItems := list)
    else Notify(s.(rawItems := list))
  }

  /** `original = value`: nothing happens for an equal value; null resets the
      whole model; otherwise both the request and the current text become
      the value. Either change notifies once. */
  function SetOriginalStep(s: ModelState, value: Option<TextState>): ModelState {
    if s.isDisposed || s.original == value then s
    else if value.None? then Notify(Cleared(s))
    else Notify(s.(original := value, current := value))
  }

  /** `cursor = value`: ignored without a request; never notifies. */
  function SetCursorStep(s: ModelState, value: Option<CursorSpan>): ModelState {
    if s.isDisposed || s.original.None? then s
    else s.(cursor := value)
  }

  /** `current = value`: ignored for an equal value and unless both the
      request and the cursor are set. A text shorter than the request's
      resets the whole model; otherwise the query becomes the current text
      from the cursor start to the current column. Each change notifies once. */
  function SetCurrentStep(s: ModelState, value: Option<TextState>): ModelState {
    if s.isDisposed || s.current == value || s.original.None? || s.cursor.None? then s
    else if value.None? then Notify(s.(current := None))
    else if |value.value.text| < |s.original.value.text| then Notify(Cleared(s))
    else Notify(s.(current := value,
                   query := Substring(value.value.text, s.cursor.value.start, value.value.column)))
  }

  function SetQueryStep(s: ModelState, q: string): ModelState {
    if s.isDisposed then s else s.(query := q)
  }

  function SetLegacyStep(s: ModelState, legacy: bool): ModelState {
    if s.isDisposed then s else s.(isLegacy := legacy)
  }

  /** The edit has left the completed token: no non-blank character just
      before the new column, and the column is left of the request's. */
  predicate LeftToken(change: TextState, original: TextState) {
    !NonBlankBefore(change.text, change.column) && change.column < original.column
  }

  /** `handleTextChange(change)`: nothing without a request; a reset when
      the edit left the token; otherwise the change becomes the current text. */
  function HandleTextChangeStep(s: ModelState, change: TextState): ModelState {
    if s.isDisposed || s.original.None? then s
    else if LeftToken(change, s.original.value) then SetOriginalStep(s, None)
    else SetCurrentStep(s, Some(change))
  }

  /** `dispose()`: the first call clears the model and detaches listeners;
      later calls do nothing. */
  function DisposeStep(s: ModelState): ModelState {
    if s.isDisposed then s else Cleared(s).(isDisposed := true)
  }

  /** `items()` of a state. */
  function ItemsOfState(s: ModelState): CompletionList {
    Items(s.rawItems, s.query, s.isLegacy)
  }

  // ---------------------------------------------------------------------
  // Sequences of operations.

  datatype Op =
    | SetItems(list: CompletionList)
    | SetOriginal(original: Option<TextState>)
    | SetCursor(cursor: Option<CursorSpan>)
    | SetCurrent(current: Option<TextState>)
    | SetQuery(query: string)
    | SetLegacy(legacy: bool)
    | HandleTextChange(change: TextState)
    | Dispose

  function Apply(s: ModelState, op: Op): ModelState {
    match op
    case SetItems(l) => SetItemsStep(s, l)
    case SetOriginal(o) => SetOriginalStep(s, o)
    case SetCursor(c) => SetCursorStep(s, c)
    case SetCurrent(c) => SetCurrentStep(s, c)
    case SetQuery(q) => SetQueryStep(s, q)
    case SetLegacy(b) => SetLegacyStep(s, b)
    case HandleTextChange(c) => HandleTextChangeStep(s, c)
    case Dispose => DisposeStep(s)
  }

  function Run(s: ModelState, ops: seq<Op>): ModelState
    decreases |ops|
  {
    if ops == [] then s else Run(Apply(s, ops[0]), ops[1..])
  }

  /** Every operation keeps the invariant and notifies at most once. */
  lemma ApplyStep(s: ModelState, op: Op)
    requires Inv(s)
    ensures Inv(Apply(s, op))
    ensures s.emitted <= Apply(s, op).emitted <= s.emitted + 1
  {
  }

  /** The invariant holds after any sequence of operations from a valid
      state, and the notification count never decreases. */
  lemma {:induction false} RunKeepsInv(s: ModelState, ops: seq<Op>)
    requires Inv(s)
    ensures Inv(Run(s, ops))
    ensures s.emitted <= Run(s, ops).emitted <= s.emitted + |ops|
    decreases |ops|
  {
    if ops != [] {
      ApplyStep(s, ops[0]);
      RunKeepsInv(Apply(s, ops[0]), ops[1..]);
    }
  }

  /** A disposed model is inert: no sequence of operations changes it or
      notifies anyone. */
  lemma {:induction false} DisposedIsInert(s: ModelState, ops: seq<Op>)
    requires s.isDisposed
    ensures Run(s, ops) == s
    decreases |ops|
  {
    if ops != [] {
      assert Apply(s, ops[0]) == s;
      DisposedIsInert(s, ops[1..]);
    }
  }

  /** Whatever happened before, a disposed model's `items()` is the empty
      list. */
  lemma {:induction false} DisposedItemsEmpty(s: ModelState, ops: seq<Op>)
    requires Inv(s)
    ensures ItemsOfState(Run(DisposeStep(s), ops)) == EmptyList
  {
    DisposedIsInert(DisposeStep(s), ops);
  }

  /** Change detection for the candidate list: a notification exactly when
      the new list differs in length or in some label. */
  lemma SetItemsNotifies(s: ModelState, list: CompletionList)
    requires !s.isDisposed
    ensures SetItemsStep(s, list).rawItems == list
    ensures SetItemsStep(s, list).emitted == s.emitted + (if SameLabels(s.rawItems, list) then 0 else 1)
  {
  }

  /** Delivering the same list again never notifies. */
  lemma SetItemsRepeat(s: ModelState, list: CompletionList)
    ensures SetItemsStep(SetItemsStep(s, list), list) == SetItemsStep(s, list)
  {
  }

  /** Change detection for the request: a notification exactly when the new
      value differs. */
  lemma SetOriginalNotifies(s: ModelState, value: Option<TextState>)
    requires !s.isDisposed
    ensures SetOriginalStep(s, value).emitted == s.emitted + (if s.original == value then 0 else 1)
    ensures SetOriginalStep(s, value).original == value
    ensures s.original != value && value.Some? ==> SetOriginalStep(s, value).current == value
    ensures s.original != value && value.None? ==> Idle(SetOriginalStep(s, value))
  {
  }

  lemma SetOriginalRepeat(s: ModelState, value: Option<TextState>)
    ensures SetOriginalStep(SetOriginalStep(s, value), value) == SetOriginalStep(s, value)
  {
  }

  /** The cursor is taken exactly when a request exists, and never notifies. */
  lemma SetCursorGuard(s: ModelState, value: Option<CursorSpan>)
    requires !s.isDisposed
    ensures SetCursorStep(s, value).cursor == if s.original.Some? then value else s.cursor
    ensures SetCursorStep(s, value).emitted == s.emitted
  {
  }

  /** The current text is ignored when equal or unless both request and
      cursor are set; once they are, a new value is taken unless it is
      shorter than the request, in which case the model resets. Exactly a
      new value notifies, once. */
  lemma SetCurrentGuard(s: ModelState, value: Option<TextState>)
    requires !s.isDisposed
    ensures s.original.None? || s.cursor.None? ==> SetCurrentStep(s, value) == s
    ensures s.original.Some? && s.cursor.Some? &&
            (value.None? || |value.value.text| >= |s.original.value.text|) ==>
              SetCurrentStep(s, value).current == value && SetCurrentStep(s, value).original == s.original
    ensures s.original.Some? && s.cursor.Some? && s.current != value &&
            value.Some? && |value.value.text| < |s.original.value.text| ==>
              Idle(SetCurrentStep(s, value))
    ensures s.current == value ==> SetCurrentStep(s, value) == s
    ensures s.original.Some? && s.cursor.Some? && s.current != value &&
            value.Some? && |value.value.text| >= |s.original.value.text| ==>
              SetCurrentStep(s, value).query == Substring(value.value.text, s.cursor.value.start, value.value.column)
    ensures SetCurrentStep(s, value).emitted
              == s.emitted + (if s.original.Some? && s.cursor.Some? && s.current != value then 1 else 0)
  {
  }

  lemma SetCurrentRepeat(s: ModelState, value: Option<TextState>)
    ensures SetCurrentStep(SetCurrentStep(s, value), value) == SetCurrentStep(s, value)
  {
  }

  /** Without a request a keystroke does nothing; with one it either resets
      the model (when it left the token) or is offered to the current-text
      setter. */
  lemma HandleTextChangeCases(s: ModelState, change: TextState)
    requires !s.isDisposed
    ensures s.original.None? ==> HandleTextChangeStep(s, change) == s
    ensures s.original.Some? && LeftToken(change, s.original.value) ==> Idle(HandleTextChangeStep(s, change))
    ensures s.original.Some? && !LeftToken(change, s.original.value) ==>
              HandleTextChangeStep(s, change) == SetCurrentStep(s, Some(change))
  {
  }

  /** Disposal happens once: a second call changes nothing. */
  lemma DisposeRepeat(s: ModelState)
    ensures DisposeStep(s).isDisposed
    ensures DisposeStep(DisposeStep(s)) == DisposeStep(s)
    ensures DisposeStep(s).emitted == s.emitted
  {
  }
}

=== FILE: wrappers.dfy ===
/** Optional values: the model's stand-in for the source's nullable fields
    (`null`) and for `createPatch` returning `undefined`. */
module Wrappers {
  datatype Option<+T> = None | Some(value: T)
}
